=== FILE: README.md ===
# California housing price prediction: request and response logic

A Dafny model of the decision logic inside the Streamlit app `app.py`.
The app collects eight housing-district features and POSTs them to a
Snowflake ML scoring endpoint. It then reads the predicted median house
value out of the service's loosely shaped JSON answer. The model covers
three parts:

- **Request construction** (`payload.dfy`, module `Payload`): the scoring
  body `{"data": [[0, f1, ..., f8]]}` with the features in fixed
  positional order, and the header `Authorization: Snowflake Token="<pat>"`.
  The widget minimum and maximum of each feature become `ValidFeatures`,
  which the request for a submission requires.
- **Response extraction** (`extraction.dfy`, module `Extraction`): the
  probe `result["data"][0][1]["output_feature_0"] * 100000`. It is a total
  function returning `Prediction(raw, price)`, `NoData`,
  `MissingField(payload)` or `ExtractError(response)`. Python's exceptions
  become explicit results. The Python operators it uses (`in`, `len`,
  integer and string subscripts, the multiply-and-format step) are modelled
  in `json.dfy` (module `JsonValue`) on a JSON datatype
  `JNull | JBool | JNum | JStr | JArr | JObj`.
- **Outcome classification** (`outcomes.dfy`, module `Outcomes`): maps the
  result of the HTTP call to what the user is told. The call's result is a
  `Transport` value: a raised exception, or a response with a status, a
  text and a decoded (or undecodable) body. The outcome is success with
  the extraction, an API error with code and body, timeout, connection
  error, or a generic error. `Notices` lists, in order, the notices the
  page shows for each outcome.

Most operations have a partner definition and a lemma that ties the two
together. Where there is none, lemmas pin the operation case by case:

- `BuildPayload` has a reader `ReadPayload`. `ReadPayloadExactly` proves
  that a document reads back as `f` exactly when it is `BuildPayload(f)`.
- `AuthHeader` has `TokenOf`. `TokenOfExactly` proves the token comes back
  unaltered, even when it contains quotes.
- `Extract` has the shape predicates `PredictionShape`, `NoDataShape` and
  `ProbedValue`. One lemma per outcome proves each is reached exactly for
  its shape.
- The Python operators in `JsonValue` are tied to one another. `in`
  raises where `len` does. On a dict, `in` agrees with the string
  subscript. An integer subscript succeeds exactly below `len`.
  Scaling succeeds exactly on the values that have no `len`.
- `PayloadRowWithinBounds` proves that, for features within the widget
  bounds (`ValidFeatures`), each entry of the wire row after the index lies
  within the minimum and maximum of the input at its position.
- `Classify` is pinned by six case lemmas, one per transport result:
  status 200 with a decodable body (`Status200Parsed`) and without one
  (`UndecodableBodyIsGeneric`), another status (`Non200IsApiError`), and
  the three exception handlers in order (`TimeoutFirst`,
  `ConnectionSecond`, `OtherExceptionIsGeneric`). `PriceShownExactly`
  states when a price reaches the page.
- `Notices` is the next stage after `Classify`: what the page shows for an
  outcome. `NoticesInjective` and `FirstNoticeDeterminesKind` prove that
  the notices determine the outcome.

### Behaviour of app.py worth noting

- The first row needs at least two elements. Index 1 is taken and
  anything after it is ignored.
- A first row that cannot be indexed, or that has fewer than two
  elements, raises inside the `try`. That gives `ExtractError` with the
  whole response.
- `"data"` being something other than a list does not always give
  "no data":
  - an empty object or empty string under `"data"` gives `NoData`, since
    `len` is 0;
  - a non-empty object gives `ExtractError`, because `data[0]` is a
    KeyError: JSON keys are strings;
  - a non-empty string gives `ExtractError`, because `data[0]` is one
    character and `[1]` on it is an IndexError;
  - a number, bool or null gives `ExtractError`, because `len` raises.
- A first row that is a string of two or more characters is indexed as a
  string. Its second character reaches the dict test and gives
  `MissingField(JStr(that character))`.
- A non-object top level gives the result of Python's `in`:
  - a list is searched for the string `"data"`; if absent the result is
    `NoData`, if present the string subscript raises: `ExtractError`;
  - a string is searched for the substring `data`, with the same two
    results;
  - a number, bool or null is not iterable: `ExtractError`.
- A JSON `true`/`false` prediction is accepted as 1/0, because Python's
  bool is an int. A string or list survives `* 100000` as repetition but
  fails the `,.0f` format. A dict or null fails the multiplication. All of
  these give `ExtractError`.
- On status 200 with a JSON body, "Prediction successful!" is shown before
  extraction is attempted. So it also appears alongside a no-data warning,
  a missing-field warning or an extraction error. The raw result is always
  shown at the end.
- A status-200 body that is not JSON fails in `response.json()`, outside
  the extraction `try`. It lands in the generic error branch (`Failed`)
  with no success notice.
- Exception handlers are tried in order: Timeout, then ConnectionError,
  then any other exception, which is reported with its own message. An
  exception is modelled with two flags because a connect timeout is both;
  it is reported as a timeout.

## Model

| member | source | states |
|---|---|---|
| `JsonValue.IsSubstring` | app.py:141 | Python's `"data" in s` on a string holds iff `data` occurs at some index of `s` |
| `JsonValue.Len` | app.py:141 | `len` is defined exactly on lists, dicts and strings, and is 0 exactly for the empty list, dict and string |
| `JsonValue.ContainsFailsWhereLenFails` | app.py:141 | the `in` test raises on exactly the values `len` raises on: numbers, bools and null |
| `JsonValue.ContainsAgreesWithGet` | app.py:141-142 | on a dict, `"data" in result` holds exactly when `result["data"]` succeeds |
| `JsonValue.GetOnlyOnDicts` | app.py:142 | a string subscript succeeds only on a dict for which `in` holds, and yields one of its values |
| `JsonValue.ContainsOnStringIsSubstring` | app.py:141 | on a string, the `in` test holds exactly when the key occurs somewhere in it |
| `JsonValue.SubscriptBelowLen` | app.py:142 | an integer subscript succeeds exactly on a list or string, below its `len` |
| `JsonValue.StringSubscriptIsOneChar` | app.py:142 | a string subscript yields a string of `len` 1 holding the character at that index |
| `JsonValue.NumericBoolAsInt` | app.py:148-152 | a bool prediction is scaled and formatted as the int 1 or 0 |
| `JsonValue.NumericExactlyScalars` | app.py:148-152 | scaling and formatting succeed exactly on the non-null values with no `len` (numbers and bools), a number unchanged |
| `Payload.PayloadRowWithinBounds` | app.py:24-123 | for features within the widget bounds of app.py:29-101 (`ValidFeatures`), each wire-row entry after the index lies within the `min_value` and `max_value` of the input at its position |
| `Payload.BuildPayload` | app.py:111-123 | the built body reads back as exactly the eight features it was built from |
| `Payload.ReadPayloadExactly` | app.py:111-123 | a document reads back as `f` if and only if it is the payload built from `f` |
| `Payload.PayloadLayout` | app.py:111-123 | the body has the single key "data", holding one row of nine entries: 0, then the eight features in form order |
| `Payload.PayloadInjective` | app.py:111-123 | different feature vectors never give the same payload |
| `Payload.AuthHeader` | app.py:110 | the header value carries the token unaltered between `Snowflake Token="` and a closing quote |
| `Payload.TokenOfExactly` | app.py:110 | a header value carries token `pat` if and only if it is the one built from `pat` |
| `Payload.BuildRequest` | app.py:110-123 | for in-range features, the request has exactly one header, Authorization, carrying the token; its body reads back as the features |
| `Payload.DefaultsValid` | app.py:26-101 | the form's initial values satisfy every widget bound, so the bounds precondition can be met |
| `Extraction.Extract` | app.py:140-175 | an extraction error carries the whole response; a prediction's price is the raw value times 100000 |
| `Extraction.PredictionExactly` | app.py:141-148 | a prediction results if and only if `data` is a non-empty list whose first row is a list of two or more elements whose second is an object with a number-like `output_feature_0` |
| `Extraction.NoDataExactly` | app.py:141-170 | NoData results if and only if there is no "data" to find or it is empty, without anything raising |
| `Extraction.MissingFieldExactly` | app.py:142-168 | MissingField(p) results if and only if the probe reaches `p` at data[0][1] and `p` is not an object holding the key |
| `Extraction.ExtractErrorOtherwise` | app.py:140-175 | every other response gives ExtractError carrying the response; no failure escapes |
| `Extraction.WellFormedResponse` | app.py:141-148 | a numeric prediction is found whatever the row index, extra keys, extra row elements or later rows |
| `Extraction.NoDataKey` | app.py:141-170 | a response object without "data" gives NoData |
| `Extraction.EmptyData` | app.py:141-170 | an empty "data" list gives NoData |
| `Extraction.ShortFirstRow` | app.py:142 | a first row with fewer than two elements gives ExtractError |
| `Extraction.ObjectData` | app.py:142 | a non-empty object under "data" gives ExtractError |
| `Extraction.StringData` | app.py:142 | a non-empty string under "data" gives ExtractError |
| `Extraction.NonNumericPrediction` | app.py:145-152 | a string, list, object or null prediction gives ExtractError |
| `Extraction.TopLevelList` | app.py:141 | a top-level list gives NoData unless it contains the string "data", then ExtractError |
| `Extraction.TopLevelScalar` | app.py:141 | a top-level number, bool or null gives ExtractError |
| `Extraction.ExamplePrediction` | app.py:141-148 | `{"data":[[0,{"output_feature_0":2.5}]]}` gives raw 2.5 and price 250000 |
| `Extraction.ExampleWrongField` | app.py:144-168 | `{"data":[[0,{"wrong_field":1.0}]]}` gives MissingField carrying that object |
| `Outcomes.Classify` | app.py:133-190 | a success outcome always carries the extraction of its own result |
| `Outcomes.ExtractionNotices` | app.py:144-175 | a price is shown exactly for a prediction; a missing field shows the value found; an extraction error shows the whole response; no success notice here |
| `Outcomes.Notices` | app.py:137-190 | every outcome shows something; the success notice comes first exactly on success, and the raw result last; an API error shows its status and text |
| `Outcomes.SuccessAlwaysAnnounced` | app.py:133-179 | on status 200 with a JSON body the success notice is first and the raw result last, whatever extraction gives |
| `Outcomes.PriceShownExactly` | app.py:133-163 | a price is shown if and only if the status is 200, the body decodes and extraction finds that prediction |
| `Outcomes.Non200IsApiError` | app.py:133-183 | any other status gives an API error with that status and text, and the outcome does not depend on the body |
| `Outcomes.Status200Parsed` | app.py:133-134 | a status-200 response with a decodable body is a success carrying that document and its extraction |
| `Outcomes.OtherExceptionIsGeneric` | app.py:189-190 | an exception that is neither a timeout nor a connection error is a generic error with its own message |
| `Outcomes.TimeoutFirst` | app.py:185-186 | a timeout is reported as a timeout, even when it is also a connection error |
| `Outcomes.ConnectionSecond` | app.py:185-188 | a connection error that is not a timeout is reported as a connection failure |
| `Outcomes.UndecodableBodyIsGeneric` | app.py:133-190 | a 200 whose body is not JSON is a generic error with the decoder's message, with no success notice |
| `Outcomes.FirstNoticeDeterminesKind` | app.py:137-190 | the first notice shown tells the kind of outcome, and the status of an API error |
| `Outcomes.NoticesInjective` | app.py:137-190 | two outcomes showing the same notices are the same outcome |
| `Outcomes.ExtractionNoticesInjective` | app.py:144-175 | each extraction result is shown by notices of its own |
| `Outcomes.EchoedPayload` | app.py:111-145 | if the service echoed the request body, the app would report MissingField with the median income |

## Left out

- Page layout, titles, columns, spinner, expander, metric and markdown text, the example-district rerun buttons and the feature help text. They are UI. `Notices` keeps only which notice is shown and in what order, with the status, texts and JSON values it displays; it does not keep the wording.
- Outcomes.ExtractionNotices: the extraction-error notice does not carry the Python exception text that the page shows with it, because `Extract` records only that a probe raised, not which exception or its message. The whole response shown beside it is kept.
- Rendering calls are assumed not to raise. This includes `st.json` on the value found at data[0][1].
- Reading `SNOWFLAKE_PAT` and `SCORING_ENDPOINT` from the secret store, and stopping when they are missing. This is configuration I/O; the token is a parameter and the endpoint URL does not appear.
- The `requests.post` call, its endpoint and its 30-second timeout. This is network I/O; its result is the `Transport` parameter. The message text of an exception is an opaque string.
- Floating point. Features and predictions are exact reals, and `* 100000` is exact. JSON integers and floats are not distinguished, so the leading `0` of the row is `JNum(0.0)`. NaN, infinities, rounding and the `,.0f` / `.4f` display formatting are not modelled.
- The clamping and step behaviour of the number inputs. Only their minimum and maximum are kept, as `ValidFeatures`.
- A MemoryError from repeating a huge string or list by 100000. It would also end in `ExtractError`, which the model already gives for those values.

=== FILE: extraction.dfy ===
/**
 * Extraction of the predicted price from the service's loosely shaped
 * response. The app probes `result["data"][0][1]["output_feature_0"]`
 * inside a try block; here every probe that Python would let raise is an
 * explicit `ExtractError` carrying the whole response.
 */
module Extraction {
  import opened JsonValue

  /** The multiplier from units of $100,000 to dollars. */
  const DollarsPerUnit: real := 100000.0

  /** The key under which the service returns its prediction. */
  const PredictionKey: string := "output_feature_0"

  /** What extraction makes of a decoded response. */
  datatype Extraction =
    | Prediction(raw: real, price: real)   // the value and its dollar amount
    | NoData                               // "No prediction data found"
    | MissingField(payload: Json)          // data[0][1] lacks the key; shown as received
    | ExtractError(response: Json)         // a probe raised; the whole response is shown

  /**
   * The extraction as the app performs it, with Python's semantics for
   * each operator: the `in` test, `len`, the two integer subscripts, the
   * dict test, the key lookup and the multiply-then-format step.
   */
  function Extract(result: Json): (x: Extraction)
    ensures x.ExtractError? ==> x.response == result
    ensures x.Prediction? ==> x.price == x.raw * DollarsPerUnit
  {
    match Contains(result, "data")
    case None => ExtractError(result)
    case Some(false) => NoData
    case Some(true) =>
      match Get(result, "data")
      case None => ExtractError(result)
      case Some(data) =>
        match Len(data)
        case None => ExtractError(result)
        case Some(n) =>
          if n == 0 then NoData
          else
            match At(data, 0)
            case None => ExtractError(result)
            case Some(row) =>
              match At(row, 1)
              case None => ExtractError(result)
              case Some(payload) =>
                if payload.JObj? && PredictionKey in payload.fields then
                  match Numeric(payload.fields[PredictionKey])
                  case None => ExtractError(result)
                  case Some(v) => Prediction(v, v * DollarsPerUnit)
                else MissingField(payload)
  }

  // ---------------------------------------------------------------------
  // Independent descriptions of the response shapes behind each outcome.
  // ---------------------------------------------------------------------

  /** The value the service meant as a prediction: a number, or a bool (1 or 0). */
  predicate NumberLike(v: Json, x: real)
  {
    v == JNum(x) || (v.JBool? && x == if v.b then 1.0 else 0.0)
  }

  /**
   * `result` is an object whose "data" list starts with a row of at least
   * two elements, the second an object holding a number-like prediction `x`.
   */
  predicate PredictionShape(result: Json, x: real)
  {
    && result.JObj? && "data" in result.fields
    && var data := result.fields["data"];
    && data.JArr? && |data.elems| > 0
    && var row := data.elems[0];
    && row.JArr? && |row.elems| >= 2
    && var payload := row.elems[1];
    && payload.JObj? && PredictionKey in payload.fields
    && NumberLike(payload.fields[PredictionKey], x)
  }

  /**
   * `result` carries no prediction data without anything raising: an
   * object without "data" or with an empty list, object or string there;
   * a list without the string "data"; a string without "data" in it.
   */
  predicate NoDataShape(result: Json)
  {
    match result
    case JObj(m) => "data" !in m || m["data"] in {JArr([]), JObj(map[]), JStr("")}
    case JArr(xs) => JStr("data") !in xs
    case JStr(s) => !IsSubstring("data", s)
    case _ => false
  }

  /**
   * The value at `result["data"][0][1]` when that probe succeeds: `data` a
   * non-empty list whose first row is a list of two or more elements, or a
   * string of two or more characters (then its second character).
   */
  predicate ProbedValue(result: Json, payload: Json)
  {
    && result.JObj? && "data" in result.fields
    && var data := result.fields["data"];
    && data.JArr? && |data.elems| > 0
    && var row := data.elems[0];
    && ((row.JArr? && |row.elems| >= 2 && payload == row.elems[1])
        || (row.JStr? && |row.s| >= 2 && payload == JStr([row.s[1]])))
  }

  // ---------------------------------------------------------------------
  // Properties of Extract.
  // ---------------------------------------------------------------------

  /** Extraction yields a prediction exactly for the prediction shape. */
  lemma PredictionExactly(result: Json, raw: real, price: real)
    ensures Extract(result) == Prediction(raw, price)
      <==> PredictionShape(result, raw) && price == raw * DollarsPerUnit
  {
  }

  /** Extraction yields NoData exactly for the no-data shapes. */
  lemma NoDataExactly(result: Json)
    ensures Extract(result) == NoData <==> NoDataShape(result)
  {
  }

  /**
   * Extraction yields MissingField exactly when the probe reaches a value
   * that is not an object holding the key; it carries that very value.
   */
  lemma MissingFieldExactly(result: Json, payload: Json)
    ensures Extract(result) == MissingField(payload)
      <==> ProbedValue(result, payload) && !(payload.JObj? && PredictionKey in payload.fields)
  {
  }

  /**
   * Every other response makes a probe raise, and the error carries the
   * whole response: extraction never lets a failure escape.
   */
  lemma ExtractErrorOtherwise(result: Json)
    requires !NoDataShape(result)
    requires forall x: real :: !PredictionShape(result, x)
    requires forall p: Json :: !(ProbedValue(result, p) && !(p.JObj? && PredictionKey in p.fields))
    ensures Extract(result) == ExtractError(result)
  {
    match Extract(result)
    case Prediction(raw, price) => PredictionExactly(result, raw, price);
    case NoData => NoDataExactly(result);
    case MissingField(p) => MissingFieldExactly(result, p);
    case ExtractError(r) =>
  }

  /**
   * The well-formed response: whatever the row index, the other keys of
   * the response and of the prediction object, the elements after the
   * prediction object and the later rows, the numeric prediction `v` is
   * found and scaled to dollars.
   */
  lemma WellFormedResponse(index: Json, others: map<string, Json>, fields: map<string, Json>,
                           rest: seq<Json>, laterRows: seq<Json>, v: real)
    ensures
      var payload := JObj(fields[PredictionKey := JNum(v)]);
      var row := JArr([index, payload] + rest);
      Extract(JObj(others["data" := JArr([row] + laterRows)]))
        == Prediction(v, v * 100000.0)
  {
  }

  /** A response without a "data" key yields NoData. */
  lemma NoDataKey(others: map<string, Json>)
    requires "data" !in others
    ensures Extract(JObj(others)) == NoData
  {
  }

  /** A response whose "data" is an empty list yields NoData. */
  lemma EmptyData(others: map<string, Json>)
    ensures Extract(JObj(others["data" := JArr([])])) == NoData
  {
  }

  /** A first row shorter than two elements makes the probe raise. */
  lemma ShortFirstRow(others: map<string, Json>, row: seq<Json>, laterRows: seq<Json>)
    requires |row| < 2
    ensures var r := JObj(others["data" := JArr([JArr(row)] + laterRows)]); Extract(r) == ExtractError(r)
  {
  }

  /** A non-empty object under "data" is indexed by 0, which no JSON key is. */
  lemma ObjectData(others: map<string, Json>, data: map<string, Json>)
    requires data != map[]
    ensures var r := JObj(others["data" := JObj(data)]); Extract(r) == ExtractError(r)
  {
  }

  /** A non-empty string under "data" yields a one-character first row, so index 1 raises. */
  lemma StringData(others: map<string, Json>, s: string)
    requires s != ""
    ensures var r := JObj(others["data" := JStr(s)]); Extract(r) == ExtractError(r)
  {
  }

  /** A prediction that is a string, list, object or null fails when scaled or formatted. */
  lemma NonNumericPrediction(index: Json, fields: map<string, Json>, v: Json)
    requires !(v.JNum? || v.JBool?)
    ensures var r := JObj(map["data" := JArr([JArr([index, JObj(fields[PredictionKey := v])])])]);
      Extract(r) == ExtractError(r)
  {
  }

  /** A list at the top level without the string "data" in it yields NoData. */
  lemma TopLevelList(xs: seq<Json>)
    ensures Extract(JArr(xs)) == (if JStr("data") in xs then ExtractError(JArr(xs)) else NoData)
  {
  }

  /** A number, bool or null at the top level is not iterable, so the `in` test raises. */
  lemma TopLevelScalar(result: Json)
    requires result.JNum? || result.JBool? || result.JNull?
    ensures Extract(result) == ExtractError(result)
  {
  }

  /** The example response `{"data": [[0, {"output_feature_0": 2.5}]]}`. */
  lemma ExamplePrediction()
    ensures Extract(JObj(map["data" := JArr([JArr([JNum(0.0), JObj(map["output_feature_0" := JNum(2.5)])])])]))
      == Prediction(2.5, 250000.0)
  {
  }

  /** The example response `{"data": [[0, {"wrong_field": 1.0}]]}` keeps the object for display. */
  lemma ExampleWrongField()
    ensures Extract(JObj(map["data" := JArr([JArr([JNum(0.0), JObj(map["wrong_field" := JNum(1.0)])])])]))
      == MissingField(JObj(map["wrong_field" := JNum(1.0)]))
  {
  }
}

=== FILE: json.dfy ===
/**
 * JSON values as the scoring service exchanges them, together with the
 * behaviour of the few Python operators the app applies to a decoded
 * response (`in`, `len`, integer and string subscripts, arithmetic on the
 * prediction). Each operator either yields a value or "raises": `None`
 * stands for the exception Python would throw.
 */
module JsonValue {

  datatype Option<+T> = None | Some(value: T)

  /** A decoded JSON document. Numbers are exact reals. */
  datatype Json =
    | JNull
    | JBool(b: bool)
    | JNum(n: real)
    | JStr(s: string)
    | JArr(elems: seq<Json>)
    | JObj(fields: map<string, Json>)

  /** `p` occurs in `s` starting at index `i`. */
  predicate OccursAt(p: string, s: string, i: nat)
  {
    i + |p| <= |s| && s[i..i + |p|] == p
  }

  /** Python's substring test `p in s` for two strings. */
  function IsSubstring(p: string, s: string): (r: bool)
    ensures r <==> exists i: nat :: OccursAt(p, s, i)
    decreases |s|
  {
    if |s| < |p| then
      assert forall i: nat :: !OccursAt(p, s, i);
      false
    else if s[..|p|] == p then
      assert OccursAt(p, s, 0);
      true
    else
      var rest := IsSubstring(p, s[1..]);
      assert forall i: nat :: OccursAt(p, s[1..], i) <==> OccursAt(p, s, i + 1) by {
        forall i: nat ensures OccursAt(p, s[1..], i) <==> OccursAt(p, s, i + 1) {
          if i + |p| <= |s[1..]| {
            assert s[1..][i..i + |p|] == s[i + 1..i + 1 + |p|];
          }
        }
      }
      assert !OccursAt(p, s, 0);
      assert forall i: nat :: OccursAt(p, s, i) ==> i == 0 || OccursAt(p, s[1..], i - 1);
      rest
  }

  /**
   * Python's `key in v` for a string `key`: key membership on a dict,
   * element equality on a list (only the JSON string `key` equals it), a
   * substring test on a string; on a number, a bool or None it raises
   * (the argument is not iterable).
   */
  function Contains(v: Json, key: string): Option<bool>
  {
    match v
    case JObj(m) => Some(key in m)
    case JArr(xs) => Some(JStr(key) in xs)
    case JStr(s) => Some(IsSubstring(key, s))
    case _ => None
  }

  /** Python's `len(v)`: defined on lists, dicts and strings only. */
  function Len(v: Json): (r: Option<nat>)
    ensures r.Some? <==> (v.JArr? || v.JObj? || v.JStr?)
    ensures r == Some(0) <==> v in {JArr([]), JObj(map[]), JStr("")}
  {
    match v
    case JArr(xs) => Some(|xs|)
    case JObj(m) =>
      assert m != map[] ==> exists k :: k in m;
      Some(|m|)
    case JStr(s) => Some(|s|)
    case _ => None
  }

  /**
   * Python's `v[i]` for a non-negative integer `i`. A list yields its
   * element, a string its one-character substring; a dict raises KeyError
   * because decoded JSON keys are always strings; anything else is not
   * subscriptable. An index past the end raises IndexError.
   */
  function At(v: Json, i: nat): Option<Json>
  {
    match v
    case JArr(xs) => if i < |xs| then Some(xs[i]) else None
    case JStr(s) => if i < |s| then Some(JStr([s[i]])) else None
    case _ => None
  }

  /**
   * Python's `v[key]` for a string `key`: only a dict holding the key
   * answers; lists and strings reject a string index, the rest are not
   * subscriptable.
   */
  function Get(v: Json, key: string): Option<Json>
  {
    match v
    case JObj(m) => if key in m then Some(m[key]) else None
    case _ => None
  }

  /**
   * The value Python's arithmetic and `f` formatting see in `v`: a number,
   * or a bool (a subclass of int, so true is 1 and false is 0). Strings and
   * lists survive `* 100000` as repetition but fail the `,.0f` format;
   * dicts and None fail the multiplication. Either way: `None`.
   */
  function Numeric(v: Json): Option<real>
  {
    match v
    case JNum(x) => Some(x)
    case JBool(b) => Some(if b then 1.0 else 0.0)
    case _ => None
  }

  // ---------------------------------------------------------------------
  // How the operators relate to one another.
  // ---------------------------------------------------------------------

  /** `in` with a string key raises on exactly the values `len` raises on. */
  lemma ContainsFailsWhereLenFails(v: Json, key: string)
    ensures Contains(v, key).None? <==> Len(v).None?
  {
  }

  /** On a dict, `key in v` holds exactly when the subscript `v[key]` succeeds. */
  lemma ContainsAgreesWithGet(v: Json, key: string)
    requires v.JObj?
    ensures Contains(v, key) == Some(Get(v, key).Some?)
  {
  }

  /** Only a dict answers a string subscript, and then with the value stored under the key. */
  lemma GetOnlyOnDicts(v: Json, key: string)
    ensures Get(v, key).Some? ==> v.JObj? && Contains(v, key) == Some(true)
    ensures Get(v, key).Some? ==> Get(v, key).value in v.fields.Values
  {
  }

  /** On a string, `key in v` holds exactly when `key` occurs somewhere in it. */
  lemma ContainsOnStringIsSubstring(v: Json, key: string)
    requires v.JStr?
    ensures Contains(v, key) == Some(true) <==> exists i: nat :: OccursAt(key, v.s, i)
  {
  }

  /**
   * An integer subscript succeeds exactly on a list or string and below its
   * `len`; a dict has a `len` but no integer keys.
   */
  lemma SubscriptBelowLen(v: Json, i: nat)
    ensures At(v, i).Some? <==> (v.JArr? || v.JStr?) && i < Len(v).value
  {
  }

  /** Subscripting a string yields a string of `len` 1: its character at that index. */
  lemma StringSubscriptIsOneChar(v: Json, i: nat)
    requires v.JStr? && At(v, i).Some?
    ensures At(v, i).value.JStr? && Len(At(v, i).value) == Some(1)
    ensures At(v, i).value.s[0] == v.s[i]
  {
  }

  /** A bool is scaled and formatted as the int 1 or 0. */
  lemma NumericBoolAsInt(b: bool)
    ensures Numeric(JBool(b)) == Numeric(JNum(if b then 1.0 else 0.0))
  {
  }

  /**
   * Scaling and formatting succeed exactly on the non-null values that
   * have no `len`: numbers and bools. A number is taken as it is.
   */
  lemma NumericExactlyScalars(v: Json)
    ensures Numeric(v).Some? <==> Len(v).None? && !v.JNull?
    ensures v.JNum? ==> Numeric(v) == Some(v.n)
  {
  }
}

=== FILE: outcomes.dfy ===
/**
 * Classification of one scoring call into what the user is told. The
 * network call itself is not modelled: its result arrives as a
 * `Transport` value, either a raised exception or an HTTP response.
 */
module Outcomes {
  import opened JsonValue
  import opened Payload
  import opened Extraction

  /**
   * An exception raised by the HTTP client. A connect timeout is both a
   * Timeout and a ConnectionError, so the two are flags, not alternatives.
   */
  datatype Exc = Exc(isTimeout: bool, isConnectionError: bool, message: string)

  /** What `response.json()` makes of the body: a document, or a decode error's message. */
  datatype Body = Parsed(json: Json) | Unparsable(error: string)

  /** The result of the POST: an exception, or a response with its status, text and body. */
  datatype Transport =
    | Raised(exc: Exc)
    | Response(status: int, text: string, body: Body)

  /** The user-visible outcome of one submission. */
  datatype Outcome =
    | Succeeded(result: Json, extraction: Extraction)  // status 200 and a JSON body
    | ApiError(status: int, text: string)              // any other status; body text verbatim
    | TimedOut
    | ConnectionFailed
    | Failed(message: string)                          // any other exception

  /**
   * The app's handling of a call: status 200 decodes the body and extracts
   * the prediction; any other status reports the code and text; the
   * exception handlers are tried in order Timeout, ConnectionError, any.
   */
  function Classify(t: Transport): (o: Outcome)
    ensures o.Succeeded? ==> o.extraction == Extract(o.result)
  {
    match t
    case Raised(e) =>
      if e.isTimeout then TimedOut
      else if e.isConnectionError then ConnectionFailed
      else Failed(e.message)
    case Response(status, text, body) =>
      if status == 200 then
        match body
        case Parsed(j) => Succeeded(j, Extract(j))
        case Unparsable(msg) => Failed(msg)
      else ApiError(status, text)
  }

  /** One element of what the page shows, in the order it is shown. */
  datatype Notice =
    | SuccessNotice                        // "Prediction successful!"
    | PriceShown(price: real, raw: real)   // the dollar amount and the raw value
    | MissingFieldWarning                  // "Could not find 'output_feature_0'"
    | ReceivedData(payload: Json)          // the value found at data[0][1]
    | NoDataWarning                        // "No prediction data found"
    | ExtractErrorNotice                   // "Error extracting prediction"
    | RawResponse(response: Json)          // the whole response, for debugging
    | TechnicalDetails(result: Json)       // the raw response in the details expander
    | ApiErrorNotice(status: int)          // "API Error <status>"
    | BodyText(text: string)               // the response text as a code block
    | TimeoutNotice
    | ConnectionNotice
    | ErrorNotice(message: string)

  /** The notices the extraction branch shows. */
  function ExtractionNotices(x: Extraction): (n: seq<Notice>)
    ensures 1 <= |n| <= 2
    ensures x.Prediction? ==> n == [PriceShown(x.price, x.raw)]
    ensures !x.Prediction? ==> forall k | 0 <= k < |n| :: !n[k].PriceShown?
    ensures x.MissingField? ==> ReceivedData(x.payload) in n
    ensures x.ExtractError? ==> RawResponse(x.response) in n
    ensures SuccessNotice !in n
  {
    match x
    case Prediction(raw, price) => [PriceShown(price, raw)]
    case NoData => [NoDataWarning]
    case MissingField(p) => [MissingFieldWarning, ReceivedData(p)]
    case ExtractError(r) => [ExtractErrorNotice, RawResponse(r)]
  }

  /** The notices shown for an outcome, in order. */
  function Notices(o: Outcome): (n: seq<Notice>)
    ensures |n| >= 1
    ensures o.Succeeded? <==> n[0] == SuccessNotice
    ensures o.Succeeded? ==> |n| >= 3 && n[|n| - 1] == TechnicalDetails(o.result)
    ensures o.ApiError? ==> n == [ApiErrorNotice(o.status), BodyText(o.text)]
  {
    match o
    case Succeeded(j, x) => [SuccessNotice] + ExtractionNotices(x) + [TechnicalDetails(j)]
    case ApiError(status, text) => [ApiErrorNotice(status), BodyText(text)]
    case TimedOut => [TimeoutNotice]
    case ConnectionFailed => [ConnectionNotice]
    case Failed(msg) => [ErrorNotice(msg)]
  }

  /**
   * On status 200 with a JSON body the success notice comes first and the
   * raw result last, whatever extraction makes of it.
   */
  lemma SuccessAlwaysAnnounced(text: string, j: Json)
    ensures var n := Notices(Classify(Response(200, text, Parsed(j))));
      |n| >= 3 && n[0] == SuccessNotice && n[|n| - 1] == TechnicalDetails(j)
  {
  }

  /** A price is shown exactly when the status is 200 and extraction finds a prediction. */
  lemma PriceShownExactly(t: Transport, price: real, raw: real)
    ensures PriceShown(price, raw) in Notices(Classify(t))
      <==> t.Response? && t.status == 200 && t.body.Parsed?
           && Extract(t.body.json) == Prediction(raw, price)
  {
  }

  /**
   * Any status other than 200 reports that status and the text verbatim,
   * and the body is never decoded nor extracted: the outcome is the same
   * whatever the body holds.
   */
  lemma Non200IsApiError(status: int, text: string, body: Body, other: Body)
    requires status != 200
    ensures Classify(Response(status, text, body)) == ApiError(status, text)
    ensures Classify(Response(status, text, body)) == Classify(Response(status, text, other))
  {
  }

  /** A timeout is reported as such, even when it is also a connection error. */
  lemma TimeoutFirst(e: Exc)
    requires e.isTimeout
    ensures Classify(Raised(e)) == TimedOut
  {
  }

  /**
   * A status-200 response whose body decodes is a success carrying that
   * document and its extraction.
   */
  lemma Status200Parsed(text: string, j: Json)
    ensures Classify(Response(200, text, Parsed(j))) == Succeeded(j, Extract(j))
  {
  }

  /** A connection error that is not a timeout is reported as a connection failure. */
  lemma ConnectionSecond(e: Exc)
    requires e.isConnectionError && !e.isTimeout
    ensures Classify(Raised(e)) == ConnectionFailed
  {
  }

  /**
   * An exception that is neither a timeout nor a connection error reaches
   * the last handler and is reported with its own message.
   */
  lemma OtherExceptionIsGeneric(e: Exc)
    requires !e.isTimeout && !e.isConnectionError
    ensures Classify(Raised(e)) == Failed(e.message)
  {
  }

  /**
   * A 200 whose body is not JSON fails in the decoder, before any notice
   * of success: it is a generic error with the decoder's message, never an
   * extraction error.
   */
  lemma UndecodableBodyIsGeneric(text: string, msg: string)
    ensures Classify(Response(200, text, Unparsable(msg))) == Failed(msg)
    ensures SuccessNotice !in Notices(Classify(Response(200, text, Unparsable(msg))))
  {
  }

  /**
   * The outcome kinds are told apart by what is shown: every outcome
   * shows at least one notice, and the first notice determines the kind.
   */
  lemma FirstNoticeDeterminesKind(o: Outcome, o': Outcome)
    requires Notices(o)[0] == Notices(o')[0]
    ensures o.Succeeded? <==> o'.Succeeded?
    ensures o.ApiError? <==> o'.ApiError?
    ensures o.ApiError? ==> o.status == o'.status
    ensures o.TimedOut? <==> o'.TimedOut?
    ensures o.ConnectionFailed? <==> o'.ConnectionFailed?
    ensures o.Failed? ==> o == o'
  {
  }

  /**
   * What the user sees determines the outcome: two outcomes with the
   * same notices are the same outcome.
   */
  lemma NoticesInjective(o: Outcome, o': Outcome)
    requires Notices(o) == Notices(o')
    ensures o == o'
  {
    if o.Succeeded? && o'.Succeeded? {
      var n := Notices(o);
      assert n[|n| - 1] == TechnicalDetails(o.result);
      assert Notices(o')[|n| - 1] == TechnicalDetails(o'.result);
      assert n[1..|n| - 1] == ExtractionNotices(o.extraction);
      assert Notices(o')[1..|n| - 1] == ExtractionNotices(o'.extraction);
      ExtractionNoticesInjective(o.extraction, o'.extraction);
    } else if o.ApiError? {
      assert Notices(o)[1] == BodyText(o.text);
    }
  }

  /** Each extraction result is shown by notices of its own. */
  lemma ExtractionNoticesInjective(x: Extraction, x': Extraction)
    requires ExtractionNotices(x) == ExtractionNotices(x')
    ensures x == x'
  {
  }

  /**
   * A service that echoes the request body back makes the app find the
   * median income at `data[0][1]`, which is not an object: MissingField.
   */
  lemma EchoedPayload(f: Features)
    ensures Extract(BuildPayload(f)) == MissingField(JNum(f.medInc))
  {
  }
}

=== FILE: payload.dfy ===
/**
 * Construction of the scoring request: the positional feature row sent
 * as `{"data": [[0, f1, ..., f8]]}` and the Snowflake authorization
 * header. The eight features come from bounded number inputs on the form.
 */
module Payload {
  import opened JsonValue

  /** The eight housing-district features, in the form's order. */
  datatype Features = Features(
    medInc: real,
    houseAge: real,
    aveRooms: real,
    aveBedrms: real,
    population: real,
    aveOccup: real,
    latitude: real,
    longitude: real)

  /** The features as a list, in the form's (and the wire row's) order. */
  function Values(f: Features): seq<real>
  {
    [f.medInc, f.houseAge, f.aveRooms, f.aveBedrms,
     f.population, f.aveOccup, f.latitude, f.longitude]
  }

  /** The input widgets' `min_value`s, in the form's order. */
  const MinValues: seq<real> := [0.0, 1.0, 0.8, 0.3, 3.0, 0.7, 32.5, -124.3]

  /** The input widgets' `max_value`s, in the form's order. */
  const MaxValues: seq<real> := [15.0, 52.0, 141.0, 34.0, 35682.0, 1243.0, 42.0, -114.3]

  /** Every feature lies within the minimum and maximum of its input widget. */
  predicate ValidFeatures(f: Features)
  {
    && 0.0 <= f.medInc <= 15.0
    && 1.0 <= f.houseAge <= 52.0
    && 0.8 <= f.aveRooms <= 141.0
    && 0.3 <= f.aveBedrms <= 34.0
    && 3.0 <= f.population <= 35682.0
    && 0.7 <= f.aveOccup <= 1243.0
    && 32.5 <= f.latitude <= 42.0
    && -124.3 <= f.longitude <= -114.3
  }

  /** The synthetic row index the service's tabular format puts first. */
  const RowIndex: real := 0.0

  /** The scoring body: one row, the row index followed by the features. */
  function BuildPayload(f: Features): (p: Json)
    ensures ReadPayload(p) == Some(f)
  {
    JObj(map["data" := JArr([JArr([
      JNum(RowIndex),
      JNum(f.medInc),
      JNum(f.houseAge),
      JNum(f.aveRooms),
      JNum(f.aveBedrms),
      JNum(f.population),
      JNum(f.aveOccup),
      JNum(f.latitude),
      JNum(f.longitude)])])])
  }

  /**
   * How a reader of the tabular format recovers the features: an object
   * whose only key is "data", holding exactly one row of nine numbers
   * whose first is the row index 0.
   */
  function ReadPayload(p: Json): (r: Option<Features>)
  {
    if p.JObj? && p.fields.Keys == {"data"} && p.fields["data"].JArr?
      && |p.fields["data"].elems| == 1 && p.fields["data"].elems[0].JArr?
    then
      var row := p.fields["data"].elems[0].elems;
      if |row| == 9 && row[0] == JNum(RowIndex) && forall i | 1 <= i < 9 :: row[i].JNum?
      then Some(Features(row[1].n, row[2].n, row[3].n, row[4].n,
                         row[5].n, row[6].n, row[7].n, row[8].n))
      else None
    else None
  }

  /** A document is read back as `f` exactly when it is the payload built from `f`. */
  lemma ReadPayloadExactly(p: Json, f: Features)
    ensures ReadPayload(p) == Some(f) <==> p == BuildPayload(f)
  {
    if ReadPayload(p) == Some(f) {
      var rows := p.fields["data"].elems;
      var row := rows[0].elems;
      assert row == BuildPayload(f).fields["data"].elems[0].elems;
      assert rows == [JArr(row)];
      assert p.fields == map["data" := JArr(rows)];
    }
  }

  /**
   * The payload has one row of length nine: the row index 0, then median
   * income, house age, average rooms, average bedrooms, population,
   * average occupancy, latitude and longitude, in that order.
   */
  lemma PayloadLayout(f: Features)
    ensures BuildPayload(f).JObj? && BuildPayload(f).fields.Keys == {"data"}
    ensures var rows := BuildPayload(f).fields["data"];
      && rows.JArr? && |rows.elems| == 1 && rows.elems[0].JArr?
      && var row := rows.elems[0].elems;
      && |row| == 9
      && row[0] == JNum(0.0)
      && row[1] == JNum(f.medInc) && row[2] == JNum(f.houseAge)
      && row[3] == JNum(f.aveRooms) && row[4] == JNum(f.aveBedrms)
      && row[5] == JNum(f.population) && row[6] == JNum(f.aveOccup)
      && row[7] == JNum(f.latitude) && row[8] == JNum(f.longitude)
  {
  }

  /**
   * For in-range features, every entry after the row index in the wire row
   * lies within the bounds of the input widget at the same position.
   */
  lemma PayloadRowWithinBounds(f: Features)
    requires ValidFeatures(f)
    ensures var row := BuildPayload(f).fields["data"].elems[0].elems;
      forall i | 1 <= i < 9 :: row[i].JNum? && MinValues[i - 1] <= row[i].n <= MaxValues[i - 1]
  {
    var row := BuildPayload(f).fields["data"].elems[0].elems;
    assert forall i | 1 <= i < 9 :: row[i] == JNum(Values(f)[i - 1]);
  }

  /** Distinct feature vectors never produce the same payload. */
  lemma PayloadInjective(f: Features, g: Features)
    requires BuildPayload(f) == BuildPayload(g)
    ensures f == g
  {
  }

  /** The fixed scheme prefix of the authorization header value. */
  const TokenPrefix: string := "Snowflake Token=\""

  /** The Authorization header value: the token, unescaped, in quotes. */
  function AuthHeader(pat: string): (h: string)
    ensures TokenOf(h) == Some(pat)
    ensures |h| == |TokenPrefix| + |pat| + 1
  {
    TokenPrefix + pat + "\""
  }

  /**
   * The token carried by a header value: what lies between the scheme
   * prefix and the final quote.
   */
  function TokenOf(h: string): (r: Option<string>)
  {
    if |TokenPrefix| < |h| && h[..|TokenPrefix|] == TokenPrefix && h[|h| - 1] == '"'
    then Some(h[|TokenPrefix|..|h| - 1])
    else None
  }

  /** A header value carries `pat` exactly when it is the one built from `pat`. */
  lemma TokenOfExactly(h: string, pat: string)
    ensures TokenOf(h) == Some(pat) <==> h == AuthHeader(pat)
  {
  }

  /** An HTTP request as the app sends it: headers and a JSON body. */
  datatype Request = Request(headers: map<string, string>, body: Json)

  /**
   * The request for one submission: a single Authorization header and the
   * payload. The form only ever submits in-range features.
   */
  function BuildRequest(f: Features, pat: string): (r: Request)
    requires ValidFeatures(f)
    ensures r.headers.Keys == {"Authorization"}
    ensures TokenOf(r.headers["Authorization"]) == Some(pat)
    ensures ReadPayload(r.body) == Some(f)
  {
    Request(map["Authorization" := AuthHeader(pat)], BuildPayload(f))
  }

  /** The form's initial values lie within the widget bounds. */
  lemma DefaultsValid()
    ensures ValidFeatures(Features(3.8462, 27.0, 5.4298, 1.0967, 3375.0, 3.0625, 33.69, -117.96))
  {
  }
}
